=== FILE: README.md ===
# FakeMinecraftServer protocol core in Dafny

FakeMinecraftServer pretends to be a Minecraft Java Edition server. It reads a
client's handshake packet and replies in one of two ways. A server-list query
(next state 1) gets a status document, and the server then echoes back, as
packet 1, the next eight bytes the client sends.
A login attempt (next state 2) is refused with a kick message. Every connection
is then closed. This project models that protocol core of `main.py`:

- the VarInt codec (`read_varint`, `write_varint`), which is unsigned LEB128 as
  described in section 7.6 of the DWARF 4 standard;
- the length-prefixed string codec (`read_utf`, `write_utf`);
- packet framing (`ClientThread.send_packet`);
- the handshake parsing and the reply dispatch of `ClientThread.run`.

How the model is built:

- A connection is the sequence of bytes the client sends.
- Each reader is a pure function that takes the unread bytes and returns a value,
  or an error, together with the bytes still unread (module `Stream`).
- A session returns its trace (`Session.Outcome`): the frames it sends in order,
  then exactly one close. It also returns the parsed handshake, the name the
  connection is logged under, and the failure the error handler logged, if any.

Modules follow the program's layers:

- `Stream`: bytes, reads and `recv`.
- `VarInt`: the VarInt codec.
- `Utf`: length-prefixed strings.
- `Envelope`: packet frames.
- `Status`: the settings and the JSON documents.
- `Session`: one client thread.

Where the code departs from the usual description of the protocol (VarInts of at
most five bytes holding 32-bit values, strings of exactly their declared length),
the model follows the code:

- `read_varint` raises only after a sixth byte in a row carries the continuation
  bit. A six-byte VarInt whose last byte ends it is accepted. Nothing narrows the
  result to 32 bits, so values up to 2^42 - 1 read back, and this bound appears
  in the round-trip lemmas.
- When the stream ends inside a VarInt, `read_varint` returns the value read so
  far (0 when no byte arrived) instead of failing.
- `read_utf` reads at most the declared number of bytes and never fails on a
  short stream. It returns the bytes that arrived.
- The declared packet length is read and then dropped. Nothing compares it with
  the bytes that follow.

## Model

| member | source | states |
|---|---|---|
| VarInt.Encode | main.py:61-71 | the encoder emits at least one byte, and the bytes' seven-bit groups, least significant first, add up to the value |
| VarInt.EncodeShape | main.py:64-70 | in every encoding, all bytes but the last have the continuation bit set and the last does not; an encoding longer than one byte never ends in a zero byte |
| VarInt.EncodeLength | main.py:61-71 | an encoding fits in k bytes exactly when the value is below 128^k |
| VarInt.EncodeUint32 | main.py:61-71 | every value below 2^32 encodes in at most five bytes |
| VarInt.DecodeFrom | main.py:47-57 | the decoder loop consumes a prefix of the input, at most 6 - numRead bytes |
| VarInt.DecodeFromFails | main.py:53-57 | the loop fails only with VarIntTooLong, right after the sixth byte in a row with the continuation bit |
| VarInt.DecodeFromStops | main.py:48-55 | a successful loop stops after the first byte without the continuation bit, or at end of input with fewer than six continuation bytes read |
| VarInt.DecodeFromValue | main.py:51-52 | the loop's value is the number spelled by the seven-bit groups of the bytes it consumed |
| VarInt.Decode | main.py:44-58 | read_varint consumes at most six bytes; it fails only when all six carry the continuation bit, and then exactly those six are gone; every value it returns is below 2^42 |
| VarInt.DecodeSpec | main.py:44-58 | read_varint fails if and only if the first six bytes all carry the continuation bit; otherwise it stops at a terminating byte or at end of input and returns the value of the groups it consumed |
| VarInt.DecodeTruncated | main.py:48-50 | input that ends inside a VarInt before six bytes reads as the partial value, and an empty input reads as 0 |
| VarInt.RoundTrip | main.py:44-71 | reading back the encoding of any value below 2^42 returns the value and leaves the following bytes unread; a larger value's encoding is rejected |
| Stream.Recv | main.py:76 | recv(n) splits the stream: it returns at most n bytes, and fewer only when the stream is exhausted |
| Utf.Encode | main.py:79-81 | write_utf emits a length prefix followed by the bytes themselves |
| Utf.Decode | main.py:74-76 | read_utf fails if and only if its length read fails; otherwise it returns at most the declared number of bytes, fewer only at end of stream, and consumes exactly the bytes it returns |
| Utf.RoundTrip | main.py:74-81 | reading back a written string returns the same bytes and leaves the rest unread |
| Utf.Truncated | main.py:74-76 | a string cut short by the end of the stream reads as the bytes that arrived, with no error |
| Envelope.Frame | main.py:90-93 | a frame (the length prefix, then `Envelope.Body`: the packet id followed by the payload) is at least two bytes longer than its payload and ends with the payload |
| Envelope.FrameRoundTrip | main.py:90-93 | a frame's length prefix decodes to the body length, the body's id decodes to the packet id, and the header read returns the id with the payload next |
| Envelope.ReadHeader | main.py:97-98 | the header read consumes at most twelve bytes, and it succeeds only when the length read does |
| Envelope.LengthIgnored | main.py:97-98 | the header read returns the same result whatever declared length precedes the packet id |
| Status.StatusDoc | main.py:113-122 | the status document holds the version text, protocol -1, the maximum and online player counts and the MOTD, under exactly the keys version, players and description, whose inner objects hold exactly name and protocol, max and online, and text; favicon is added, with the data-URL prefix, exactly when an icon is available |
| Status.KickDoc | main.py:128-129 | the kick document's only member is text, holding the kick message |
| Session.ReadPort | main.py:102 | the port read succeeds exactly when two bytes remain; it then reads a big-endian value below 65536 and consumes those two bytes; otherwise it fails with ShortPort and consumes the rest |
| Session.PortRoundTrip | main.py:102 | a port written high byte first reads back unchanged |
| Session.ReadUsername | main.py:104-109 | the username read consumes a prefix of the input whether or not it fails |
| Session.UsernameRoundTrip | main.py:104-109 | a username written as a string reads back unchanged |
| Session.UsernameUnreadable | main.py:104-109 | a username whose length read fails leaves the name "Unknown", and the six bytes the failed read consumed stay consumed |
| Session.ParseHandshake | main.py:100-109 | the handshake fields are read from the front of the packet, so the bytes left over are a suffix of the input |
| Session.ParseClientHello | main.py:100-109 | protocol version, server address, port and next state written by a client read back as written, and the username read starts right after them |
| Session.Respond | main.py:112-131 | next state 1 sends the status frame (`StatusFrame`: packet 0 carrying the serialized status document as a string) and then a packet-1 frame carrying up to eight following bytes; next state 2 sends the kick frame (`KickFrame`: packet 0 carrying the serialized kick document) and fails after it exactly when the kick message is empty; any other state sends nothing |
| Session.Exchange | main.py:96-131 | a failed header read is logged as that read error with no handshake; a packet id other than 0 gives no handshake and no failure; with id 0, a failed handshake parse is logged as its read error, and a successful one is the handshake reported; frames are sent only after a handshake was parsed; next state 1 sends the status frame, then packet 1 echoing up to eight of the bytes after the handshake; next state 2 sends the kick frame; any other state sends nothing |
| Session.ExchangeHandshake | main.py:96-110 | a handshake packet with any declared length is answered as its parsed fields and the bytes after them say |
| Session.DisplayName | main.py:110 | the name a connection is logged under is the username when it is non-empty, and the peer host otherwise |
| Session.Trace | main.py:123-135 | the sent frames appear in order, followed by one close |
| Session.Run | main.py:95-135 | every session ends with exactly one close, after its frames; the handshake reported is exactly the one parsed after a header with packet id 0, and a failed header or handshake read is logged as that read error while a nonzero id is logged as nothing; no frame is sent without a handshake or after a read failure; the logged name is the username, or the peer host when it is empty; and the replies follow the next state: for next state 1, the status frame, then packet 1 echoing up to eight of the bytes after the handshake, then the close |
| Session.StatusQuery | main.py:112-126 | a status query gets the status frame, then its next eight or fewer bytes echoed as packet 1, then the close, with no failure |
| Session.LoginAttempt | main.py:127-131 | a login attempt gets the kick frame and the close; the failure after the kick frame is logged exactly when the kick message is empty |
| Session.OtherState | main.py:99-112 | a handshake with any other next state gets only the close, with no failure |
| Session.StatusDespiteBadUsername | main.py:104-126 | an unreadable username does not stop the status reply; the session is logged as "Unknown" |
| Session.ProtocolVersionIgnored | main.py:100 | the frames sent do not depend on the declared protocol version |
| Session.NotAHandshake | main.py:97-99 | a packet id other than 0 sends nothing, logs no failure and closes |
| Session.ShortPortField | main.py:102 | a port field shorter than two bytes ends the session in its error handler with nothing sent |
| Session.EmptyConnection | main.py:97-102 | a connection that sends no bytes reads zeros and empty strings until the port, then fails with nothing sent |
| Session.StatusReplyReadable | main.py:90-123 | a client can take the status reply apart again: the header gives packet 0, and the string inside is the serialized status document |

## Left out

- Loading the configuration: creating and reading `config.yml` and the YAML parser. The model takes the loaded settings as a `Status.Config` value.
- Settings of other YAML types, and missing settings that read as `None`. Player counts are integers and texts are byte strings. A kick message that is not a string fails differently in the source, and that failure is not modelled.
- Reading the favicon: the file-existence check, the file read and base64. They are reduced to an optional base64 text in the settings.
- An icon path that exists but cannot be read, such as a directory or a file without read permission, is not modelled. In the source, opening it raises, so the session ends in its error handler with no status frame sent. The model only has an icon text or no icon.
- JSON serialisation. `json.dumps` is a function the session is given, so the exact text layout is not fixed.
- UTF-8 encoding and decoding. Strings are kept as bytes. A failed decode is not modelled: of the server address (an error) or of the username (it leaves "Unknown").
- Stream.Recv: it always returns min(n, available) bytes. A real socket may return fewer bytes even while more are on the way. CPython's `recv(n)` also allocates n bytes up front, so a huge declared string length (2^40, say) raises MemoryError. At the address read that ends the session with nothing sent, and at the username read it leaves "Unknown". The model instead returns the bytes that are there and goes on to reply.
- Socket reads that raise, such as a connection reset, are not modelled. Depending on where one happens, it would be swallowed by the username block, end the session in its error handler, or, at the ping read, stop the session after the status frame with no echo.
- Session.Run: a client that keeps the connection open without sending blocks a read forever, because there is no timeout. The input is a finite stream that ends when the client closes. So "every session ends with exactly one close" holds only for clients that stop sending.
- `write_varint` with a negative value: in the source it loops forever. Ids and lengths are natural numbers in the model, so it never arises.
- Logging text, ANSI colours and the peer port in log lines. Only the display name, the parsed handshake and the failure kind are kept.
- `sendall` failures and the connection closing mid-send. Every frame is assumed to be written in full.
- The `MCServer` accept loop, threads, the listening address and process exit codes.

=== FILE: envelope.dfy ===
/** Packet framing: a packet is its id as a VarInt followed by its payload, and
    goes on the wire behind a VarInt of its own length.
 */
module Envelope {
  import opened Stream
  import VarInt

  /** The packet body: id, then payload. */
  function Body(id: nat, payload: seq<byte>): seq<byte>
  {
    VarInt.Encode(id) + payload
  }

  /** The bytes one `send_packet` call writes. */
  function Frame(id: nat, payload: seq<byte>): (r: seq<byte>)
    ensures |r| >= |payload| + 2 && r[|r| - |payload|..] == payload
  {
    var body := Body(id, payload);
    VarInt.Encode(|body|) + body
  }

  /** The session's first two reads: the declared length, which is read and then
      dropped, and the packet id. */
  function ReadHeader(s: seq<byte>): (r: Read<nat>)
    ensures Suffix(r.rest, s) && |s| - |r.rest| <= 12
    ensures r.Ok? ==> VarInt.Decode(s).Ok?
  {
    match VarInt.Decode(s)
    case Fail(e, rest) => Fail(e, rest)
    case Ok(_, body) => VarInt.Decode(body)
  }

  /** A frame's length prefix decodes to the body's length, and the id decoded from
      the body is the id the frame was built with. */
  lemma {:induction false} FrameRoundTrip(id: nat, payload: seq<byte>, rest: seq<byte>)
    requires id < VarInt.Pow128(6) && |Body(id, payload)| < VarInt.Pow128(6)
    ensures var body := Body(id, payload);
            && VarInt.Decode(Frame(id, payload) + rest) == Ok(|body|, body + rest)
            && VarInt.Decode(body + rest) == Ok(id, payload + rest)
            && ReadHeader(Frame(id, payload) + rest) == Ok(id, payload + rest)
  {
    LengthPrefix(id, payload, rest);
    IdPrefix(id, payload, rest);
  }

  lemma {:induction false} LengthPrefix(id: nat, payload: seq<byte>, rest: seq<byte>)
    requires |Body(id, payload)| < VarInt.Pow128(6)
    ensures var body := Body(id, payload);
            VarInt.Decode(Frame(id, payload) + rest) == Ok(|body|, body + rest)
  {
    var body := Body(id, payload);
    VarInt.RoundTrip(|body|, body + rest);
    assert Frame(id, payload) + rest == VarInt.Encode(|body|) + (body + rest);
  }

  lemma {:induction false} IdPrefix(id: nat, payload: seq<byte>, rest: seq<byte>)
    requires id < VarInt.Pow128(6)
    ensures VarInt.Decode(Body(id, payload) + rest) == Ok(id, payload + rest)
  {
    VarInt.RoundTrip(id, payload + rest);
    assert Body(id, payload) + rest == VarInt.Encode(id) + (payload + rest);
  }

  /** The declared length is never checked: whatever length precedes the id, the
      header reads the same. */
  lemma {:induction false} LengthIgnored(declared: nat, s: seq<byte>)
    requires declared < VarInt.Pow128(6)
    ensures ReadHeader(VarInt.Encode(declared) + s) == VarInt.Decode(s)
  {
    VarInt.RoundTrip(declared, s);
  }
}

=== FILE: session.dfy ===
/** One client connection: read the handshake packet, answer a status query with
    the status document and a ping echo, answer a login attempt with the kick
    document, and close the connection on every path.

    The connection is the bytes the client sends, in order; what the session
    writes is a trace of sent frames ending in one close.
 */
module Session {
  import opened Stream
  import VarInt
  import Utf
  import Envelope
  import opened Status

  /** What the handshake packet declared. `username` is "Unknown" when its read failed. */
  datatype Handshake = Handshake(
    protocolVersion: nat,
    serverAddress: seq<byte>,
    serverPort: nat,
    nextState: nat,
    username: seq<byte>)

  /** Why a session ended in its error handler. */
  datatype Fault =
    | ReadFailed(error: Error)   // a handshake field could not be read
    | NoKickLine                 // an empty kick message has no first line to log

  /** What the session does to the connection. */
  datatype Event = Send(frame: seq<byte>) | Close

  /** The body of the session's `try` block: frames written before it finished or
      failed, the handshake if one was parsed, and the failure if there was one. */
  datatype Attempt = Attempt(sent: seq<seq<byte>>, handshake: Option<Handshake>, fault: Option<Fault>)

  /** A whole session: its trace, the handshake it logged with the display name it
      logged it under, and the failure it logged. */
  datatype Outcome = Outcome(
    events: seq<Event>,
    handshake: Option<Handshake>,
    display: Option<seq<byte>>,
    fault: Option<Fault>)

  /** json.dumps, supplied by the caller: this model does not fix the text layout. */
  type Serializer = Json -> seq<byte>

  const UnknownUser: seq<byte> := Ascii("Unknown")

  /** The port: one `recv(2)` unpacked as a big-endian 16-bit integer; fewer than two
      bytes make the unpack fail. */
  function ReadPort(s: seq<byte>): (r: Read<nat>)
    ensures r.Ok? <==> |s| >= 2
    ensures r.Ok? ==> r.value < 65536 && r.rest == s[2..]
    ensures r.Fail? ==> r.error == ShortPort && r.rest == []
  {
    var chunk := Recv(s, 2);
    if |chunk.value| == 2 then Ok(chunk.value[0] as int * 256 + chunk.value[1] as int, chunk.rest)
    else Fail(ShortPort, chunk.rest)
  }

  /** A port as a client writes it: high byte first. */
  function PortBytes(port: nat): seq<byte>
    requires port < 65536
  {
    [port / 256, port % 256]
  }

  lemma {:induction false} PortRoundTrip(port: nat, rest: seq<byte>)
    requires port < 65536
    ensures ReadPort(PortBytes(port) + rest) == Ok(port, rest)
  {
  }

  /** The best-effort username: a string read whose failure leaves "Unknown" in
      place. Bytes the failed read consumed stay consumed. */
  function ReadUsername(s: seq<byte>): (r: (seq<byte>, seq<byte>))
    ensures Suffix(r.1, s)
  {
    match Utf.Decode(s)
    case Ok(name, rest) => (name, rest)
    case Fail(_, rest) => (UnknownUser, rest)
  }

  /** The handshake fields in order: protocol version, server address, port, next
      state, then the optional username. */
  function ParseHandshake(s: seq<byte>): (r: Read<Handshake>)
    ensures Suffix(r.rest, s)
  {
    match VarInt.Decode(s)
    case Fail(e, rest) => Fail(e, rest)
    case Ok(version, s1) =>
      match Utf.Decode(s1)
      case Fail(e, rest) => Fail(e, rest)
      case Ok(address, s2) =>
        match ReadPort(s2)
        case Fail(e, rest) => Fail(e, rest)
        case Ok(port, s3) =>
          match VarInt.Decode(s3)
          case Fail(e, rest) => Fail(e, rest)
          case Ok(next, s4) =>
            var (user, s5) := ReadUsername(s4);
            Ok(Handshake(version, address, port, next, user), s5)
  }

  /** The status reply: packet 0 carrying the status document as a string. */
  function StatusFrame(c: Config, dumps: Serializer): seq<byte>
  {
    Envelope.Frame(0, Utf.Encode(dumps(StatusDoc(c))))
  }

  /** The login refusal: packet 0 carrying the kick document as a string. */
  function KickFrame(c: Config, dumps: Serializer): seq<byte>
  {
    Envelope.Frame(0, Utf.Encode(dumps(KickDoc(c))))
  }

  /** The reply once the handshake is parsed and `s` is what the client sent after it. */
  function Respond(hs: Handshake, s: seq<byte>, c: Config, dumps: Serializer): (a: Attempt)
    ensures a.handshake == Some(hs)
    ensures hs.nextState == 1 ==>
              a.sent == [StatusFrame(c, dumps), Envelope.Frame(1, Recv(s, 8).value)] && a.fault == None
    ensures hs.nextState == 2 ==>
              a.sent == [KickFrame(c, dumps)] && (a.fault.Some? <==> |c.kickMessage| == 0)
    ensures hs.nextState != 1 && hs.nextState != 2 ==> a.sent == [] && a.fault == None
    ensures a.fault.Some? ==> a.fault == Some(NoKickLine)
  {
    if hs.nextState == 1 then
      var ping := Recv(s, 8).value;
      Attempt([StatusFrame(c, dumps), Envelope.Frame(1, ping)], Some(hs), None)
    else if hs.nextState == 2 then
      Attempt([KickFrame(c, dumps)], Some(hs), if |c.kickMessage| == 0 then Some(NoKickLine) else None)
    else
      Attempt([], Some(hs), None)
  }

  /** The `try` block: header, then the handshake if the packet id is 0. */
  function Exchange(input: seq<byte>, c: Config, dumps: Serializer): (a: Attempt)
    ensures var h := Envelope.ReadHeader(input);
            && (h.Fail? ==> a.handshake == None && a.fault == Some(ReadFailed(h.error)))
            && (h.Ok? && h.value != 0 ==> a.handshake == None && a.fault == None)
            && (h.Ok? && h.value == 0 ==>
                  var parsed := ParseHandshake(h.rest);
                  && (parsed.Fail? ==> a.handshake == None && a.fault == Some(ReadFailed(parsed.error)))
                  && (parsed.Ok? ==> a.handshake == Some(parsed.value)))
    ensures a.handshake.None? ==> a.sent == []
    ensures a.handshake.Some? && a.fault.Some? ==> a.fault == Some(NoKickLine)
    ensures a.handshake.Some? ==>
              var hs := a.handshake.value;
              && Envelope.ReadHeader(input).Ok? && Envelope.ReadHeader(input).value == 0
              && var parsed := ParseHandshake(Envelope.ReadHeader(input).rest);
              && parsed == Ok(hs, parsed.rest) && Suffix(parsed.rest, input)
              && (hs.nextState == 1 ==>
                    && a.sent == [StatusFrame(c, dumps), Envelope.Frame(1, Recv(parsed.rest, 8).value)]
                    && a.fault == None)
              && (hs.nextState == 2 ==> a.sent == [KickFrame(c, dumps)]
                                        && (a.fault == Some(NoKickLine) <==> |c.kickMessage| == 0))
              && (hs.nextState != 1 && hs.nextState != 2 ==> a.sent == [] && a.fault == None)
  {
    match Envelope.ReadHeader(input)
    case Fail(e, _) => Attempt([], None, Some(ReadFailed(e)))
    case Ok(id, body) =>
      if id != 0 then Attempt([], None, None)
      else
        match ParseHandshake(body)
        case Fail(e, _) => Attempt([], None, Some(ReadFailed(e)))
        case Ok(hs, rest) => Respond(hs, rest, c, dumps)
  }

  /** The name the connection is logged under: the username unless it is empty,
      then the peer's address. */
  function DisplayName(hs: Handshake, peerHost: seq<byte>): (r: seq<byte>)
    ensures |hs.username| > 0 ==> r == hs.username
    ensures |hs.username| == 0 ==> r == peerHost
  {
    if |hs.username| > 0 then hs.username else peerHost
  }

  /** A session on connection bytes `input` from `peerHost`. Whatever happens, the
      connection is closed once, after the last frame; frames go out only for a
      handshake packet, and which ones depends on its next state alone. */
  function Run(input: seq<byte>, c: Config, peerHost: seq<byte>, dumps: Serializer): (r: Outcome)
    ensures var h := Envelope.ReadHeader(input);
            && (h.Fail? ==> r.handshake == None && r.fault == Some(ReadFailed(h.error)))
            && (h.Ok? && h.value != 0 ==> r.handshake == None && r.fault == None)
            && (h.Ok? && h.value == 0 ==>
                  var parsed := ParseHandshake(h.rest);
                  && (parsed.Fail? ==> r.handshake == None && r.fault == Some(ReadFailed(parsed.error)))
                  && (parsed.Ok? ==> r.handshake == Some(parsed.value)))
    ensures |r.events| >= 1 && r.events[|r.events| - 1] == Close
    ensures forall i :: 0 <= i < |r.events| - 1 ==> r.events[i].Send?
    ensures r.handshake.None? ==> r.events == [Close] && r.display == None
    ensures r.fault.Some? && r.fault != Some(NoKickLine) ==> r.events == [Close]
    ensures r.handshake.Some? ==>
              var hs := r.handshake.value;
              && Envelope.ReadHeader(input).Ok? && Envelope.ReadHeader(input).value == 0
              && r.display == Some(if |hs.username| == 0 then peerHost else hs.username)
              && var after := ParseHandshake(Envelope.ReadHeader(input).rest).rest;
              && Suffix(after, input)
              && (hs.nextState == 1 ==>
                    && r.events == [Send(StatusFrame(c, dumps)), Send(Envelope.Frame(1, Recv(after, 8).value)), Close]
                    && r.fault == None)
              && (hs.nextState == 2 ==>
                    r.events == [Send(KickFrame(c, dumps)), Close]
                    && (r.fault == Some(NoKickLine) <==> |c.kickMessage| == 0))
              && (hs.nextState != 1 && hs.nextState != 2 ==>
                    r.events == [Close] && r.fault == None)
  {
    var a := Exchange(input, c, dumps);
    var events := Trace(a.sent);
    var display := if a.handshake.Some? then Some(DisplayName(a.handshake.value, peerHost)) else None;
    Outcome(events, a.handshake, display, a.fault)
  }

  /** The frames written in order, then the close in the `finally` block. */
  function Trace(sent: seq<seq<byte>>): (t: seq<Event>)
    ensures |t| == |sent| + 1 && t[|sent|] == Close
    ensures forall i :: 0 <= i < |sent| ==> t[i] == Send(sent[i])
    ensures |sent| == 0 ==> t == [Close]
    ensures |sent| == 1 ==> t == [Send(sent[0]), Close]
    ensures |sent| == 2 ==> t == [Send(sent[0]), Send(sent[1]), Close]
  {
    seq(|sent|, i requires 0 <= i < |sent| => Send(sent[i])) + [Close]
  }

  /** The handshake fields as a client writes them, before the optional username. */
  function ClientHello(version: nat, address: seq<byte>, port: nat, next: nat): seq<byte>
    requires port < 65536
  {
    VarInt.Encode(version) + Utf.Encode(address) + PortBytes(port) + VarInt.Encode(next)
  }

  /** A connection that opens with a handshake packet: any declared length, packet
      id 0, the fields, then whatever the client sends after them. */
  function HandshakeInput(declared: nat, version: nat, address: seq<byte>, port: nat, next: nat,
                          after: seq<byte>): seq<byte>
    requires port < 65536
  {
    VarInt.Encode(declared) + VarInt.Encode(0) + ClientHello(version, address, port, next) + after
  }

  /** Every field a client writes is read back as written, and the username read
      starts right after them. */
  lemma {:induction false} ParseClientHello(version: nat, address: seq<byte>, port: nat, next: nat,
                                            after: seq<byte>)
    requires version < VarInt.Pow128(6) && |address| < VarInt.Pow128(6)
    requires port < 65536 && next < VarInt.Pow128(6)
    ensures var (user, rest) := ReadUsername(after);
            ParseHandshake(ClientHello(version, address, port, next) + after)
              == Ok(Handshake(version, address, port, next, user), rest)
  {
    var s3 := VarInt.Encode(next) + after;
    var s2 := PortBytes(port) + s3;
    var s1 := Utf.Encode(address) + s2;
    assert ClientHello(version, address, port, next) + after == VarInt.Encode(version) + s1;
    assert VarInt.Decode(VarInt.Encode(version) + s1) == Ok(version, s1) by {
      VarInt.RoundTrip(version, s1);
    }
    assert Utf.Decode(s1) == Ok(address, s2) by {
      Utf.RoundTrip(address, s2);
    }
    assert ReadPort(s2) == Ok(port, s3) by {
      PortRoundTrip(port, s3);
    }
    assert VarInt.Decode(s3) == Ok(next, after) by {
      VarInt.RoundTrip(next, after);
    }
  }

  lemma {:induction false} UsernameRoundTrip(user: seq<byte>, rest: seq<byte>)
    requires |user| < VarInt.Pow128(6)
    ensures ReadUsername(Utf.Encode(user) + rest) == (user, rest)
  {
    Utf.RoundTrip(user, rest);
  }

  /** A username length of six continuation bytes fails its read; the name stays
      "Unknown" and those six bytes are gone. */
  lemma {:induction false} UsernameUnreadable(junk: seq<byte>, rest: seq<byte>)
    requires |junk| == 6 && VarInt.ContinueBefore(junk, 6)
    ensures ReadUsername(junk + rest) == (UnknownUser, rest)
  {
    assert VarInt.ContinueBefore(junk + rest, 6);
    VarInt.DecodeSpec(junk + rest);
    assert (junk + rest)[6..] == rest;
  }

  /** A handshake packet is answered according to its fields and the bytes after them. */
  lemma {:induction false} ExchangeHandshake(declared: nat, version: nat, address: seq<byte>, port: nat,
                                             next: nat, after: seq<byte>, c: Config, dumps: Serializer)
    requires declared < VarInt.Pow128(6) && version < VarInt.Pow128(6)
    requires |address| < VarInt.Pow128(6) && port < 65536 && next < VarInt.Pow128(6)
    ensures var (user, rest) := ReadUsername(after);
            Exchange(HandshakeInput(declared, version, address, port, next, after), c, dumps)
              == Respond(Handshake(version, address, port, next, user), rest, c, dumps)
  {
    var hello := ClientHello(version, address, port, next) + after;
    var body := VarInt.Encode(0) + hello;
    assert HandshakeInput(declared, version, address, port, next, after)
           == VarInt.Encode(declared) + body;
    assert Envelope.ReadHeader(VarInt.Encode(declared) + body) == Ok(0, hello) by {
      Envelope.LengthIgnored(declared, body);
      VarInt.RoundTrip(0, hello);
    }
    ParseClientHello(version, address, port, next, after);
  }

  /** A status query gets the status document, then the next (up to) eight bytes back
      as packet 1, then the close; the username, or the peer address when it is
      empty, is the logged name. */
  lemma {:induction false} StatusQuery(declared: nat, version: nat, address: seq<byte>, port: nat,
                                       user: seq<byte>, ping: seq<byte>,
                                       c: Config, peerHost: seq<byte>, dumps: Serializer)
    requires declared < VarInt.Pow128(6) && version < VarInt.Pow128(6)
    requires |address| < VarInt.Pow128(6) && port < 65536 && |user| < VarInt.Pow128(6)
    ensures var r := Run(HandshakeInput(declared, version, address, port, 1, Utf.Encode(user) + ping),
                         c, peerHost, dumps);
            && r.events == [Send(StatusFrame(c, dumps)), Send(Envelope.Frame(1, Recv(ping, 8).value)), Close]
            && r.handshake == Some(Handshake(version, address, port, 1, user))
            && r.display == Some(if |user| == 0 then peerHost else user)
            && r.fault == None
  {
    var input := HandshakeInput(declared, version, address, port, 1, Utf.Encode(user) + ping);
    var hs := Handshake(version, address, port, 1, user);
    ExchangeHandshake(declared, version, address, port, 1, Utf.Encode(user) + ping, c, dumps);
    UsernameRoundTrip(user, ping);
    var a := Exchange(input, c, dumps);
    assert a == Respond(hs, ping, c, dumps);
    assert a.sent == [StatusFrame(c, dumps), Envelope.Frame(1, Recv(ping, 8).value)];
  }

  /** A login attempt gets the kick document and the close. */
  lemma {:induction false} LoginAttempt(declared: nat, version: nat, address: seq<byte>, port: nat,
                                        user: seq<byte>, after: seq<byte>,
                                        c: Config, peerHost: seq<byte>, dumps: Serializer)
    requires declared < VarInt.Pow128(6) && version < VarInt.Pow128(6)
    requires |address| < VarInt.Pow128(6) && port < 65536 && |user| < VarInt.Pow128(6)
    ensures var r := Run(HandshakeInput(declared, version, address, port, 2, Utf.Encode(user) + after),
                         c, peerHost, dumps);
            && r.events == [Send(KickFrame(c, dumps)), Close]
            && r.handshake == Some(Handshake(version, address, port, 2, user))
            && r.display == Some(if |user| == 0 then peerHost else user)
            && r.fault == (if |c.kickMessage| == 0 then Some(NoKickLine) else None)
  {
    ExchangeHandshake(declared, version, address, port, 2, Utf.Encode(user) + after, c, dumps);
    UsernameRoundTrip(user, after);
  }

  /** Any other next state gets no reply, only the close. */
  lemma {:induction false} OtherState(declared: nat, version: nat, address: seq<byte>, port: nat,
                                      next: nat, after: seq<byte>,
                                      c: Config, peerHost: seq<byte>, dumps: Serializer)
    requires declared < VarInt.Pow128(6) && version < VarInt.Pow128(6)
    requires |address| < VarInt.Pow128(6) && port < 65536 && next < VarInt.Pow128(6)
    requires next != 1 && next != 2
    ensures var r := Run(HandshakeInput(declared, version, address, port, next, after), c, peerHost, dumps);
            r.events == [Close] && r.handshake.Some? && r.fault == None
  {
    ExchangeHandshake(declared, version, address, port, next, after, c, dumps);
  }

  /** A username that cannot be read does not stop the status reply: the session
      logs "Unknown" and echoes the bytes after the failed read. */
  lemma {:induction false} StatusDespiteBadUsername(declared: nat, version: nat, address: seq<byte>,
                                                    port: nat, junk: seq<byte>, ping: seq<byte>,
                                                    c: Config, peerHost: seq<byte>, dumps: Serializer)
    requires declared < VarInt.Pow128(6) && version < VarInt.Pow128(6)
    requires |address| < VarInt.Pow128(6) && port < 65536
    requires |junk| == 6 && VarInt.ContinueBefore(junk, 6)
    ensures var r := Run(HandshakeInput(declared, version, address, port, 1, junk + ping),
                         c, peerHost, dumps);
            && r.events == [Send(StatusFrame(c, dumps)), Send(Envelope.Frame(1, Recv(ping, 8).value)), Close]
            && r.display == Some(UnknownUser)
  {
    var input := HandshakeInput(declared, version, address, port, 1, junk + ping);
    var hs := Handshake(version, address, port, 1, UnknownUser);
    ExchangeHandshake(declared, version, address, port, 1, junk + ping, c, dumps);
    UsernameUnreadable(junk, ping);
    var a := Exchange(input, c, dumps);
    assert a == Respond(hs, ping, c, dumps);
    assert a.sent == [StatusFrame(c, dumps), Envelope.Frame(1, Recv(ping, 8).value)];
  }

  /** The status reply is the same whatever protocol version the client declared. */
  lemma {:induction false} ProtocolVersionIgnored(declared: nat, v1: nat, v2: nat, address: seq<byte>,
                                                  port: nat, next: nat, after: seq<byte>,
                                                  c: Config, peerHost: seq<byte>, dumps: Serializer)
    requires declared < VarInt.Pow128(6) && v1 < VarInt.Pow128(6) && v2 < VarInt.Pow128(6)
    requires |address| < VarInt.Pow128(6) && port < 65536 && next < VarInt.Pow128(6)
    ensures Run(HandshakeInput(declared, v1, address, port, next, after), c, peerHost, dumps).events
            == Run(HandshakeInput(declared, v2, address, port, next, after), c, peerHost, dumps).events
  {
    ExchangeHandshake(declared, v1, address, port, next, after, c, dumps);
    ExchangeHandshake(declared, v2, address, port, next, after, c, dumps);
  }

  /** A packet other than the handshake is dropped: nothing sent, nothing logged as
      an error, the connection closed. */
  lemma {:induction false} NotAHandshake(declared: nat, id: nat, after: seq<byte>,
                                         c: Config, peerHost: seq<byte>, dumps: Serializer)
    requires declared < VarInt.Pow128(6) && 0 < id < VarInt.Pow128(6)
    ensures var r := Run(VarInt.Encode(declared) + VarInt.Encode(id) + after, c, peerHost, dumps);
            r == Outcome([Close], None, None, None)
  {
    var input := VarInt.Encode(declared) + VarInt.Encode(id) + after;
    assert input == VarInt.Encode(declared) + (VarInt.Encode(id) + after);
    assert Envelope.ReadHeader(input) == VarInt.Decode(VarInt.Encode(id) + after) by {
      Envelope.LengthIgnored(declared, VarInt.Encode(id) + after);
    }
    assert VarInt.Decode(VarInt.Encode(id) + after) == Ok(id, after) by {
      VarInt.RoundTrip(id, after);
    }
    assert Exchange(input, c, dumps) == Attempt([], None, None);
  }

  /** A port field cut short ends the session in its error handler with nothing sent. */
  lemma {:induction false} ShortPortField(declared: nat, version: nat, address: seq<byte>, tail: seq<byte>,
                                          c: Config, peerHost: seq<byte>, dumps: Serializer)
    requires declared < VarInt.Pow128(6) && version < VarInt.Pow128(6) && |address| < VarInt.Pow128(6)
    requires |tail| < 2
    ensures var input := VarInt.Encode(declared) + VarInt.Encode(0) + VarInt.Encode(version)
                         + Utf.Encode(address) + tail;
            Run(input, c, peerHost, dumps) == Outcome([Close], None, None, Some(ReadFailed(ShortPort)))
  {
    var s1 := Utf.Encode(address) + tail;
    var hello := VarInt.Encode(version) + s1;
    var body := VarInt.Encode(0) + hello;
    var input := VarInt.Encode(declared) + body;
    assert VarInt.Encode(declared) + VarInt.Encode(0) + VarInt.Encode(version) + Utf.Encode(address) + tail
           == input;
    assert Envelope.ReadHeader(input) == Ok(0, hello) by {
      Envelope.LengthIgnored(declared, body);
      VarInt.RoundTrip(0, hello);
    }
    assert VarInt.Decode(hello) == Ok(version, s1) by {
      VarInt.RoundTrip(version, s1);
    }
    assert Utf.Decode(s1) == Ok(address, tail) by {
      Utf.RoundTrip(address, tail);
    }
    assert ReadPort(tail) == Fail(ShortPort, []);
    assert ParseHandshake(hello) == Fail(ShortPort, []);
    assert Exchange(input, c, dumps) == Attempt([], None, Some(ReadFailed(ShortPort)));
    assert Trace([]) == [Close];
  }

  /** A connection closed without a byte reads length, id, version and address as
      zero and empty, then fails on the port: nothing is sent. */
  lemma {:induction false} EmptyConnection(c: Config, peerHost: seq<byte>, dumps: Serializer)
    ensures Run([], c, peerHost, dumps) == Outcome([Close], None, None, Some(ReadFailed(ShortPort)))
  {
  }

  /** A client can take the status reply apart again: its header gives packet 0, and
      the string inside is the serialized status document. */
  lemma {:induction false} StatusReplyReadable(c: Config, dumps: Serializer, rest: seq<byte>)
    requires |Envelope.Body(0, Utf.Encode(dumps(StatusDoc(c))))| < VarInt.Pow128(6)
    ensures var text := dumps(StatusDoc(c));
            && Envelope.ReadHeader(StatusFrame(c, dumps) + rest) == Ok(0, Utf.Encode(text) + rest)
            && Utf.Decode(Utf.Encode(text) + rest) == Ok(text, rest)
  {
    var text := dumps(StatusDoc(c));
    Envelope.FrameRoundTrip(0, Utf.Encode(text), rest);
    Utf.RoundTrip(text, rest);
  }
}

=== FILE: status.dfy ===
/** The replies' content: the server settings a session reads, and the JSON
    documents built from them. Turning a document into text is left to a
    serializer the session is given.
 */
module Status {
  import opened Stream

  /** The JSON values the server builds; text is kept as its UTF-8 bytes. */
  datatype Json = JInt(n: int) | JStr(text: seq<byte>) | JObj(fields: seq<Member>)
  datatype Member = Member(key: string, value: Json)

  /** The settings a session reads, loaded once and never changed. `favicon` is the
      base64 text of the icon file when one is configured, the file exists and its
      read succeeds. */
  datatype Config = Config(
    versionText: seq<byte>,
    maxPlayers: int,
    onlinePlayers: int,
    motd: seq<byte>,
    kickMessage: seq<byte>,
    favicon: Option<seq<byte>>)

  /** The value of the first member named `key`. */
  function Lookup(fields: seq<Member>, key: string): Option<Json>
  {
    if |fields| == 0 then None
    else if fields[0].key == key then Some(fields[0].value)
    else Lookup(fields[1..], key)
  }

  /** The member `key` of an object. */
  function Get(j: Json, key: string): Option<Json>
  {
    match j
    case JObj(fields) => Lookup(fields, key)
    case _ => None
  }

  /** The member `inner` of the object that is member `outer` of `j`. */
  function Nested(j: Json, outer: string, inner: string): Option<Json>
  {
    match Get(j, outer)
    case Some(v) => Get(v, inner)
    case None => None
  }

  /** The member names of an object, in order. */
  function Keys(j: Json): seq<string>
  {
    match j
    case JObj(fields) => seq(|fields|, i requires 0 <= i < |fields| => fields[i].key)
    case _ => []
  }

  const FaviconPrefix: seq<byte> := Ascii("data:image/png;base64,")

  /** The server-list status document. The protocol number is always -1, so every
      client sees the server as running an incompatible version; every other value
      comes from the settings unchanged. */
  function StatusDoc(c: Config): (r: Json)
    ensures Nested(r, "version", "name") == Some(JStr(c.versionText))
    ensures Nested(r, "version", "protocol") == Some(JInt(-1))
    ensures Nested(r, "players", "max") == Some(JInt(c.maxPlayers))
    ensures Nested(r, "players", "online") == Some(JInt(c.onlinePlayers))
    ensures Nested(r, "description", "text") == Some(JStr(c.motd))
    ensures Get(r, "favicon") == (match c.favicon
                                   case Some(b64) => Some(JStr(FaviconPrefix + b64))
                                   case None => None)
    ensures Keys(r) == ["version", "players", "description"]
                       + (if c.favicon.Some? then ["favicon"] else [])
    ensures Get(r, "version").Some? && Keys(Get(r, "version").value) == ["name", "protocol"]
    ensures Get(r, "players").Some? && Keys(Get(r, "players").value) == ["max", "online"]
    ensures Get(r, "description").Some? && Keys(Get(r, "description").value) == ["text"]
  {
    var name := Member("name", JStr(c.versionText));
    var protocol := Member("protocol", JInt(-1));
    var max := Member("max", JInt(c.maxPlayers));
    var online := Member("online", JInt(c.onlinePlayers));
    var version := Member("version", JObj([name, protocol]));
    var players := Member("players", JObj([max, online]));
    LookupSkip([name], [protocol], "protocol");
    LookupSkip([max], [online], "online");
    var description := Member("description", JObj([Member("text", JStr(c.motd))]));
    var tail := match c.favicon
      case Some(b64) => [Member("favicon", JStr(FaviconPrefix + b64))]
      case None => [];
    TopLevel(version, players, description, tail);
    assert Keys(version.value) == ["name", "protocol"];
    assert Keys(players.value) == ["max", "online"];
    assert Keys(description.value) == ["text"];
    JObj([version, players, description] + tail)
  }

  /** The status document's outer object: its three fixed members, then at most a
      favicon, are found under their own names and listed in that order. */
  lemma {:induction false} TopLevel(version: Member, players: Member, description: Member,
                                    tail: seq<Member>)
    requires version.key == "version" && players.key == "players" && description.key == "description"
    requires tail == [] || (|tail| == 1 && tail[0].key == "favicon")
    ensures var r := JObj([version, players, description] + tail);
            && Get(r, "version") == Some(version.value)
            && Get(r, "players") == Some(players.value)
            && Get(r, "description") == Some(description.value)
            && Get(r, "favicon") == (if tail == [] then None else Some(tail[0].value))
            && Keys(r) == ["version", "players", "description"] + Keys(JObj(tail))
  {
    var fields := [version, players, description] + tail;
    assert Lookup(fields, "version") == Some(version.value);
    assert fields == [version] + ([players, description] + tail);
    LookupSkip([version], [players, description] + tail, "players");
    assert fields == [version, players] + ([description] + tail);
    LookupSkip([version, players], [description] + tail, "description");
    LookupSkip([version, players, description], tail, "favicon");
    assert Keys(JObj(fields)) == ["version", "players", "description"] + Keys(JObj(tail));
  }

  /** Members before the first one named `key` do not change what it finds. */
  lemma {:induction false} LookupSkip(before: seq<Member>, after: seq<Member>, key: string)
    requires forall i :: 0 <= i < |before| ==> before[i].key != key
    ensures Lookup(before + after, key) == Lookup(after, key)
    decreases |before|
  {
    if |before| == 0 {
      assert before + after == after;
    } else {
      assert (before + after)[0] == before[0];
      assert (before + after)[1..] == before[1..] + after;
      LookupSkip(before[1..], after, key);
    }
  }

  /** The login-refusal document: the configured message as its only member. */
  function KickDoc(c: Config): (r: Json)
    ensures Get(r, "text") == Some(JStr(c.kickMessage))
    ensures Keys(r) == ["text"]
  {
    JObj([Member("text", JStr(c.kickMessage))])
  }
}

=== FILE: stream.dfy ===
/** The inbound side of a connection, modelled as an immutable byte stream.

    Every reader takes the bytes still unread and returns what it decoded
    together with the bytes left after it, so a sequence of socket reads
    becomes a chain of pure functions.
 */
module Stream {

  /** One octet on the wire. */
  type byte = x: int | 0 <= x < 256

  datatype Option<+T> = None | Some(value: T)

  /** The ways a field read can fail. */
  datatype Error =
    | VarIntTooLong   // six bytes in a row with the continuation bit set
    | ShortPort       // fewer than two bytes where the fixed-width port should be

  /** The result of reading a field from the front of a stream: the value and the
      unread bytes after it, or the error raised and the unread bytes at that point. */
  datatype Read<+T> = Ok(value: T, rest: seq<byte>) | Fail(error: Error, rest: seq<byte>)

  /** `t` is what is left of `s` after some prefix of it was consumed. */
  predicate Suffix(t: seq<byte>, s: seq<byte>)
  {
    |t| <= |s| && t == s[|s| - |t|..]
  }

  /** A socket `recv(n)`: at most `n` bytes, fewer only when the stream ends. */
  function Recv(s: seq<byte>, n: nat): (r: Read<seq<byte>>)
    ensures r.Ok? && r.value + r.rest == s
    ensures |r.value| <= n
    ensures |r.value| < n ==> r.rest == []
  {
    if n <= |s| then Ok(s[..n], s[n..]) else Ok(s, [])
  }

  /** The bytes of a literal ASCII text. */
  function Ascii(text: string): seq<byte>
    requires forall i :: 0 <= i < |text| ==> text[i] as int < 128
  {
    seq(|text|, i requires 0 <= i < |text| => text[i] as int)
  }
}

=== FILE: utf.dfy ===
/** Length-prefixed strings: the byte length as a VarInt, then the bytes.
    Text is kept as its UTF-8 bytes; whether they are valid UTF-8 is not checked.
 */
module Utf {
  import opened Stream
  import VarInt

  /** The string writer: length prefix, then the bytes. */
  function Encode(data: seq<byte>): (r: seq<byte>)
    ensures |r| > |data| && r[|r| - |data|..] == data
  {
    VarInt.Encode(|data|) + data
  }

  /** The string reader: a VarInt length, then one `recv` of that many bytes. A
      stream that ends early yields the bytes that did arrive, not an error. */
  function Decode(s: seq<byte>): (r: Read<seq<byte>>)
    ensures Suffix(r.rest, s)
    ensures r.Fail? <==> VarInt.Decode(s).Fail?
    ensures r.Ok? ==>
              var declared := VarInt.Decode(s);
              && declared.rest == r.value + r.rest
              && |r.value| <= declared.value
              && (|r.value| < declared.value ==> r.rest == [])
  {
    match VarInt.Decode(s)
    case Fail(e, rest) => Fail(e, rest)
    case Ok(n, t) => Recv(t, n)
  }

  /** Reading back a written string gives the same bytes and leaves the rest. */
  lemma {:induction false} RoundTrip(data: seq<byte>, rest: seq<byte>)
    requires |data| < VarInt.Pow128(6)
    ensures Decode(Encode(data) + rest) == Ok(data, rest)
  {
    VarInt.RoundTrip(|data|, data + rest);
    assert Encode(data) + rest == VarInt.Encode(|data|) + (data + rest);
    assert (data + rest)[..|data|] == data;
  }

  /** A string cut short by the end of the stream reads as the bytes that arrived. */
  lemma {:induction false} Truncated(data: seq<byte>, k: nat)
    requires |data| < VarInt.Pow128(6) && k < |data|
    ensures Decode(VarInt.Encode(|data|) + data[..k]) == Ok(data[..k], [])
  {
    VarInt.RoundTrip(|data|, data[..k]);
  }
}

=== FILE: varint.dfy ===
/** The protocol's variable-length integer: seven data bits per byte, least
    significant group first, with the high bit of a byte set when another byte
    follows. This is unsigned LEB128 (section 7.6 of the DWARF 4 standard).
 */
module VarInt {
  import opened Stream

  /** 128^k, the weight of the k-th seven-bit group. */
  function Pow128(k: nat): (r: nat)
    ensures r >= 1
  {
    if k == 0 then 1 else 128 * Pow128(k - 1)
  }

  /** The high bit of `b` asks for another byte. */
  predicate Continues(b: byte)
  {
    b >= 128
  }

  /** Every one of the first `n` bytes of `bs` asks for another byte. */
  predicate ContinueBefore(bs: seq<byte>, n: nat)
    requires n <= |bs|
  {
    forall i :: 0 <= i < n ==> Continues(bs[i])
  }

  /** The first `n` bytes of `bs` are what the decoder consumes before it stops
      without error: either all of `bs`, every byte asking for more (the input
      ended), or a run of continuation bytes closed by one without the high bit. */
  predicate Stopped(bs: seq<byte>, n: nat)
  {
    || (n == |bs| && ContinueBefore(bs, n))
    || (0 < n <= |bs| && !Continues(bs[n - 1]) && ContinueBefore(bs, n - 1))
  }

  /** The number the low seven bits of the bytes spell, little-endian. */
  function GroupsValue(bs: seq<byte>): nat
  {
    if |bs| == 0 then 0 else bs[0] % 128 + 128 * GroupsValue(bs[1..])
  }

  /** The encoder: emit the low seven bits, flag them when anything is left,
      shift right by seven, and stop once nothing is left. At least one byte comes
      out, and the groups spell `v` back. */
  function Encode(v: nat): (r: seq<byte>)
    ensures |r| >= 1
    ensures GroupsValue(r) == v
    decreases v
  {
    var low := v % 128;
    var high := v / 128;
    if high == 0 then [low]
    else
      var tail := Encode(high);
      assert ([low + 128] + tail)[1..] == tail;
      [low + 128] + tail
  }

  /** Every byte of an encoding but the last asks for another, the last does not,
      and a longer encoding never ends in an empty group. */
  lemma {:induction false} EncodeShape(v: nat)
    ensures var r := Encode(v);
            && ContinueBefore(r, |r| - 1) && !Continues(r[|r| - 1])
            && (|r| > 1 ==> r[|r| - 1] != 0)
    decreases v
  {
    if v / 128 != 0 {
      EncodeShape(v / 128);
    }
  }

  /** The decoder loop once `numRead` bytes with the continuation bit have been
      consumed. End of input returns what was read so far; a sixth byte in a row
      with the continuation bit is an error. Each group is or-ed in above all
      earlier ones, so or-ing equals adding and the value is written here in
      Horner form: this byte's group plus 128 times what follows. */
  function DecodeFrom(s: seq<byte>, numRead: nat): (r: Read<nat>)
    requires numRead <= 5
    ensures Suffix(r.rest, s) && |s| - |r.rest| <= 6 - numRead
    decreases |s|
  {
    if |s| == 0 then Ok(0, s)
    else if !Continues(s[0]) then Ok(s[0] % 128, s[1..])
    else if numRead + 1 > 5 then Fail(VarIntTooLong, s[1..])
    else
      match DecodeFrom(s[1..], numRead + 1)
      case Ok(high, rest) => Ok(s[0] % 128 + 128 * high, rest)
      case Fail(e, rest) => Fail(e, rest)
  }

  /** The decoder loop fails only right after the sixth continuation byte in a row. */
  lemma {:induction false} DecodeFromFails(s: seq<byte>, numRead: nat)
    requires numRead <= 5
    ensures var r := DecodeFrom(s, numRead);
            r.Fail? ==> r.error == VarIntTooLong && |s| - |r.rest| == 6 - numRead
                        && ContinueBefore(s, 6 - numRead)
    decreases |s|
  {
    var r := DecodeFrom(s, numRead);
    if r.Fail? && |s| > 0 && Continues(s[0]) && numRead + 1 <= 5 {
      var t := s[1..];
      DecodeFromFails(t, numRead + 1);
      assert ContinueBefore(t, 5 - numRead);
    }
  }

  /** Where the decoder loop stops when it does not fail: at a terminating byte, or
      at end of input before six bytes. */
  lemma {:induction false} DecodeFromStops(s: seq<byte>, numRead: nat)
    requires numRead <= 5
    ensures var r := DecodeFrom(s, numRead);
            var n := |s| - |r.rest|;
            r.Ok? ==> Stopped(s, n) && (ContinueBefore(s, n) ==> n < 6 - numRead)
    decreases |s|
  {
    if |s| == 0 {
      assert Stopped(s, 0);
    } else if !Continues(s[0]) {
      assert Stopped(s, 1);
    } else if numRead + 1 <= 5 {
      var t := s[1..];
      var r' := DecodeFrom(t, numRead + 1);
      DecodeFromStops(t, numRead + 1);
      if r'.Ok? {
        StoppedAfterContinue(s, |t| - |r'.rest|);
        assert DecodeFrom(s, numRead) == Ok(s[0] % 128 + 128 * r'.value, r'.rest);
      }
    }
  }

  /** A stop `n` bytes into the input after a continuation byte is a stop `n + 1`
      bytes into the input with it. */
  lemma StoppedAfterContinue(s: seq<byte>, n: nat)
    requires |s| > 0 && Continues(s[0]) && Stopped(s[1..], n)
    ensures Stopped(s, n + 1)
    ensures ContinueBefore(s, n + 1) ==> ContinueBefore(s[1..], n)
  {
  }

  /** The decoder loop's value is the number its consumed groups spell. */
  lemma {:induction false} DecodeFromValue(s: seq<byte>, numRead: nat)
    requires numRead <= 5
    ensures var r := DecodeFrom(s, numRead);
            r.Ok? ==> r.value == GroupsValue(s[..|s| - |r.rest|])
    decreases |s|
  {
    var r := DecodeFrom(s, numRead);
    if |s| > 0 && r.Ok? {
      if Continues(s[0]) {
        var t := s[1..];
        DecodeFromValue(t, numRead + 1);
        var n' := |t| - |r.rest|;
        assert s[..n' + 1][1..] == t[..n'];
      } else {
        assert s[..1][1..] == [];
      }
    }
  }

  /** The decoder as called by the session: from the first byte. It consumes at
      most six bytes, fails only with all six carrying the continuation bit, and
      its value stays below 2^42; no narrowing to 32 bits takes place. */
  function Decode(s: seq<byte>): (r: Read<nat>)
    ensures Suffix(r.rest, s) && |s| - |r.rest| <= 6
    ensures r.Fail? ==> r.error == VarIntTooLong && |r.rest| == |s| - 6 && r.rest == s[6..]
                        && ContinueBefore(s, 6)
    ensures r.Ok? ==> r.value < Pow128(6)
  {
    var r := DecodeFrom(s, 0);
    DecodeFromFails(s, 0);
    if r.Ok? then
      DecodeFromValue(s, 0);
      ValueBelow(s[..|s| - |r.rest|]);
      r
    else
      r
  }

  /** What the decoder reads from any input: it fails exactly when the first six
      bytes all carry the continuation bit; otherwise it stops after a terminating
      byte or at the end of input, and returns the number the consumed groups spell
      (the partial value, 0 for no bytes, when the input ended early). */
  lemma {:induction false} DecodeSpec(s: seq<byte>)
    ensures var r := Decode(s);
            && (r.Fail? <==> 6 <= |s| && ContinueBefore(s, 6))
            && (r.Ok? ==> Stopped(s, |s| - |r.rest|) && r.value == GroupsValue(s[..|s| - |r.rest|]))
  {
    var r := Decode(s);
    assert r == DecodeFrom(s, 0);
    DecodeFromStops(s, 0);
    DecodeFromValue(s, 0);
  }

  lemma {:induction false} ValueBelow(bs: seq<byte>)
    requires |bs| <= 6
    ensures GroupsValue(bs) < Pow128(6)
  {
    GroupsValueBound(bs);
    Pow128Monotone(|bs|, 6);
  }

  lemma {:induction false} GroupsValueBound(bs: seq<byte>)
    ensures GroupsValue(bs) < Pow128(|bs|)
    decreases |bs|
  {
    if |bs| > 0 {
      GroupsValueBound(bs[1..]);
    }
  }

  lemma {:induction false} Pow128Monotone(j: nat, k: nat)
    requires j <= k
    ensures Pow128(j) <= Pow128(k)
    decreases k
  {
    if j < k {
      Pow128Monotone(j, k - 1);
    }
  }

  /** An encoding fits in `k` bytes exactly when the value is below 128^k. */
  lemma {:induction false} EncodeLength(v: nat, k: nat)
    requires k >= 1
    ensures |Encode(v)| <= k <==> v < Pow128(k)
    decreases v
  {
    if v / 128 == 0 {
      Pow128Monotone(1, k);
    } else {
      var high := Encode(v / 128);
      assert |Encode(v)| == 1 + |high|;
      ShiftBound(v, Pow128(k - 1));
      if k > 1 {
        EncodeLength(v / 128, k - 1);
      }
    }
  }

  /** Dropping the low group of `v` is dividing the bound by 128. */
  lemma ShiftBound(v: nat, p: nat)
    ensures v < 128 * p <==> v / 128 < p
  {
  }

  /** Every value below 2^32 takes at most five bytes. */
  lemma {:induction false} EncodeUint32(v: nat)
    requires v < 0x1_0000_0000
    ensures |Encode(v)| <= 5
  {
    assert Pow128(5) == 0x8_0000_0000;
    EncodeLength(v, 5);
  }

  lemma {:induction false} DecodeFromEncode(v: nat, rest: seq<byte>, numRead: nat)
    requires numRead <= 5 && numRead + |Encode(v)| <= 6
    ensures DecodeFrom(Encode(v) + rest, numRead) == Ok(v, rest)
    decreases v
  {
    var e := Encode(v);
    var s := e + rest;
    if v / 128 == 0 {
      assert e == [v];
      assert s[1..] == rest;
    } else {
      var high := Encode(v / 128);
      assert e == [v % 128 + 128] + high;
      assert s[1..] == high + rest;
      DecodeFromEncode(v / 128, rest, numRead + 1);
    }
  }

  /** Decoding an encoding gives back the value and leaves the rest untouched for
      every value the decoder can hold (below 2^42, six bytes); any larger value's
      encoding starts with six continuation bytes and is rejected. */
  lemma {:induction false} RoundTrip(v: nat, rest: seq<byte>)
    ensures v < Pow128(6) ==> Decode(Encode(v) + rest) == Ok(v, rest)
    ensures v >= Pow128(6) ==> Decode(Encode(v) + rest).Fail?
  {
    var e := Encode(v);
    EncodeLength(v, 6);
    if v < Pow128(6) {
      DecodeFromEncode(v, rest, 0);
    } else {
      var s := e + rest;
      EncodeShape(v);
      assert ContinueBefore(e, |e| - 1);
      assert ContinueBefore(s, 6);
      DecodeSpec(s);
    }
  }

  /** Input that ends inside a VarInt, before six bytes, reads as the value of the
      groups that did arrive, with nothing left; no bytes at all read as 0. */
  lemma {:induction false} DecodeTruncated(s: seq<byte>)
    requires |s| < 6 && ContinueBefore(s, |s|)
    ensures Decode(s) == Ok(GroupsValue(s), [])
  {
    DecodeSpec(s);
    assert s[..|s|] == s;
  }
}
